=== FILE: README.md ===
# OTOSPoseEstimator: vision ledger and timestamp bookkeeping

This project is a Dafny model of the sensor-fused pose estimator of Pyrolib,
`OTOSPoseEstimator`. The estimator fuses two inputs. One is continuous
odometry, which it stores in a time-indexed buffer that keeps 1.5 s of
history. The other is delayed vision measurements. Each accepted
measurement becomes a record in the vision ledger: the vision-corrected pose
at the measurement's timestamp, paired with the odometry pose at that same
timestamp. The published estimate is the live odometry pose, re-expressed
relative to the newest record (`compensate`). How far a measurement moves
the estimate is set by a diagonal steady-state gain K. K is computed from
the fixed process variances Q and the configured vision standard deviations.

The estimator is modelled as an immutable `Estimator.State`. Every public
operation is a pure transition function over that state:

- `odometryPose`: the pose the odometry source currently reports;
- `buffer`: `map<real, Pose>`, timestamp to odometry pose;
- `visionUpdates`: the ledger, `map<real, VisionUpdate>`;
- `poseEstimate`: the published estimate;
- `q`: the three process variances;
- `visionK`: the 3x3 gain matrix.

Timestamps are unbounded `real`s. `NavigableMap` queries (`firstKey`,
`lastKey`, `floorKey`, `headMap(..).clear()`, `tailMap(..).clear()`) are
written out in module `TimeMaps`. They are defined as the least or greatest
element of a finite key set.

Collaborators whose code is not part of this model are passed in as
function-valued parameters (`Estimator.Collaborators`). Nothing proved
depends on what they compute, except for the facts named as predicates:

- the pose algebra `minus`, `plus`, `log`, `exp` (Pose2d/Transform2d/Twist2d
  are not part of this model). `Geometry.NullDeltaIsIdentity`,
  `Geometry.MinusUndoesPlus` and `Geometry.ExpUndoesLog` are the three
  algebraic laws used, and only where a contract says so;
- `Math.sqrt`. The gain bounds assume only that it is non-negative on
  non-negative arguments (`VisionGain.SqrtIsNonNegative`). Gain monotonicity
  also assumes it is increasing;
- the buffer's interpolating `getSample` (`PoseBuffer.Interpolator`).
  TimeInterpolatableBuffer is not part of this model.
  `PoseBuffer.SamplesWhenNonEmpty` is the assumption about it that the
  model uses: a sample is missing only when the buffer is empty.

`addVisionMeasurement` runs `cleanUpVisionUpdates` before it looks for the
odometry and vision samples (OTOSPoseEstimator.java:243-259). So a
measurement that is dropped for a missing sample still prunes the ledger.

Where the comments in OTOSPoseEstimator.java and the code differ, the model
follows the code:

- The comment at OTOSPoseEstimator.java:32-33 says that the ledger always
  holds one entry before the oldest buffered timestamp.
  That is not an invariant of the code, and the model does not assume it.
  `EstimatorProperties.LedgerMayLackEntryBeforeOldestSample` exhibits a
  reachable state without such an entry. What is proved instead: after a
  cleanup, at most one ledger key lies at or before the oldest buffered time.
  No `sampleAt` result changes because of the cleanup.

`MathUtil.clamp` is not part of this model. `Estimator.Clamp` takes it to be
`max(low, min(value, high))`. The retention pruning inside `addSample`
is an assumption about the buffer: insert at `t`, then drop every sample
older than the newest timestamp minus the retention.

## Model

| member | source | states |
|---|---|---|
| TimeMaps.FirstKey | pyrolib/src/main/java/org/team1912/pyrogen/pyrolib/ftclib/estimator/OTOSPoseEstimator.java:167 | `firstKey()`: a key of the map, at or before every other key |
| TimeMaps.LastKey | pyrolib/src/main/java/org/team1912/pyrogen/pyrolib/ftclib/estimator/OTOSPoseEstimator.java:168 | `lastKey()`: a key of the map, at or after every other key |
| TimeMaps.FloorKey | pyrolib/src/main/java/org/team1912/pyrogen/pyrolib/ftclib/estimator/OTOSPoseEstimator.java:178 | `floorKey(t)`: the result is a key at or before `t`, and no other key at or before `t` is newer |
| TimeMaps.DropBefore | pyrolib/src/main/java/org/team1912/pyrogen/pyrolib/ftclib/estimator/OTOSPoseEstimator.java:207 | `headMap(t, false).clear()`: exactly the keys at or after `t` remain, with their values |
| TimeMaps.DropAfter | pyrolib/src/main/java/org/team1912/pyrogen/pyrolib/ftclib/estimator/OTOSPoseEstimator.java:281 | `tailMap(t, false).clear()`: exactly the keys at or before `t` remain, with their values |
| PoseBuffer.AddSample | pyrolib/src/main/java/org/team1912/pyrogen/pyrolib/ftclib/estimator/OTOSPoseEstimator.java:308 | a timestamp survives exactly when it lies within the retention of every timestamp held after the insertion; no stored pose changes except the one at `t`; a sample at or after every buffered time is always kept |
| PoseBuffer.Clear | pyrolib/src/main/java/org/team1912/pyrogen/pyrolib/ftclib/estimator/OTOSPoseEstimator.java:103 | `clear()`: the buffer holds no sample afterwards |
| VisionGain.ProcessVariances | pyrolib/src/main/java/org/team1912/pyrogen/pyrolib/ftclib/estimator/OTOSPoseEstimator.java:58-60 | Q[i] is the square of the state standard deviation on axis i, so it is never negative |
| VisionGain.AxisGain | pyrolib/src/main/java/org/team1912/pyrogen/pyrolib/ftclib/estimator/OTOSPoseEstimator.java:81-88 | the gain of an axis is 0 when its Q is 0, otherwise Q/(Q+sqrt(Q·R)) with R the squared vision standard deviation; it always lies in [0, 1] |
| VisionGain.UpdatedGain | pyrolib/src/main/java/org/team1912/pyrogen/pyrolib/ftclib/estimator/OTOSPoseEstimator.java:73-89 | only the diagonal of K is written, with the axis gains; every off-diagonal entry keeps its value, so a diagonal K stays diagonal |
| VisionGain.GainFallsAsVisionStdDevGrows | pyrolib/src/main/java/org/team1912/pyrogen/pyrolib/ftclib/estimator/OTOSPoseEstimator.java:85-86 | raising a vision standard deviation strictly lowers that axis' gain, or keeps it at 0 when the axis has no process noise |
| VisionGain.Times | pyrolib/src/main/java/org/team1912/pyrogen/pyrolib/ftclib/estimator/OTOSPoseEstimator.java:270 | `K.times(v)` gives a 3x1 result; for a diagonal K, entry i is K[i][i]·v[i] |
| VisionGain.ScaleTwist | pyrolib/src/main/java/org/team1912/pyrogen/pyrolib/ftclib/estimator/OTOSPoseEstimator.java:266-274 | the full matrix product K·twist, read back as a twist, is per-axis scaling of dx, dy, dtheta when K is diagonal |
| Estimator.Compensate | pyrolib/src/main/java/org/team1912/pyrogen/pyrolib/ftclib/estimator/OTOSPoseEstimator.java:343-352 | `compensate` moves a pose from being relative to the record\'s odometry pose to being relative to its vision pose: when `minus` undoes `plus`, the result\'s displacement from the vision pose equals the pose\'s displacement from the odometry pose; and when the null transform leaves poses unchanged, the record\'s own odometry pose maps to its vision pose |
| Estimator.Clamp | pyrolib/src/main/java/org/team1912/pyrogen/pyrolib/ftclib/estimator/OTOSPoseEstimator.java:169-170 | the clamped time lies in [low, high]; it is the query time when that is in range, and the nearer bound otherwise |
| Estimator.Create | pyrolib/src/main/java/org/team1912/pyrogen/pyrolib/ftclib/estimator/OTOSPoseEstimator.java:50-62 | a new estimator has an empty buffer and ledger, publishes the odometry pose, has Q the squared state standard deviations and K their axis gains, and is `Valid` |
| Estimator.SetVisionMeasurementStdDevs | pyrolib/src/main/java/org/team1912/pyrogen/pyrolib/ftclib/estimator/OTOSPoseEstimator.java:73-89 | only K changes: each diagonal entry becomes the new axis gain, and the state stays `Valid` |
| Estimator.ResetPosition | pyrolib/src/main/java/org/team1912/pyrogen/pyrolib/ftclib/estimator/OTOSPoseEstimator.java:100-106 | buffer and ledger empty; odometry re-seeded at the given position with the gyro heading; the estimate equals it; Q and K are unchanged |
| Estimator.ResetPose | pyrolib/src/main/java/org/team1912/pyrogen/pyrolib/ftclib/estimator/OTOSPoseEstimator.java:113-118 | buffer and ledger empty; odometry re-seeded with the pose; the estimate equals it; Q and K are unchanged |
| Estimator.ResetTranslation | pyrolib/src/main/java/org/team1912/pyrogen/pyrolib/ftclib/estimator/OTOSPoseEstimator.java:125-130 | buffer and ledger empty; odometry re-seeded at the new position with the previous estimate's heading; the estimate equals it; Q and K are unchanged |
| Estimator.ResetRotation | pyrolib/src/main/java/org/team1912/pyrogen/pyrolib/ftclib/estimator/OTOSPoseEstimator.java:137-142 | buffer and ledger empty; odometry re-seeded at the previous estimate's position with the new heading; the estimate equals it; Q and K are unchanged |
| Estimator.SampleAt | pyrolib/src/main/java/org/team1912/pyrogen/pyrolib/ftclib/estimator/OTOSPoseEstimator.java:159-186 | empty without odometry. Otherwise the buffer is sampled at the query time clamped into its range. That sample is used raw when every ledger key is after the clamped time; otherwise it is compensated by the newest record at or before that time |
| Estimator.CleanUpVisionUpdates | pyrolib/src/main/java/org/team1912/pyrogen/pyrolib/ftclib/estimator/OTOSPoseEstimator.java:189-208 | only the ledger changes. A key survives exactly when it is at or after every ledger key at or before the oldest buffered time; survivors keep their records; afterwards at most one ledger key lies at or before the oldest buffered time |
| Estimator.CleanUpPreservesSampling | pyrolib/src/main/java/org/team1912/pyrogen/pyrolib/ftclib/estimator/OTOSPoseEstimator.java:188-208 | the cleanup removes only entries no sampling can reach: `sampleAt` gives the same answer at every time before and after it |
| Estimator.IsStale | pyrolib/src/main/java/org/team1912/pyrogen/pyrolib/ftclib/estimator/OTOSPoseEstimator.java:236-240 | the guard `buffer empty or lastKey - 1.5 > t`: a measurement passes it exactly when the buffer is non-empty and every buffered sample is at most 1.5 s newer than it |
| Estimator.AddVisionMeasurement | pyrolib/src/main/java/org/team1912/pyrogen/pyrolib/ftclib/estimator/OTOSPoseEstimator.java:234-286 | a stale measurement or an empty buffer changes nothing. A missing sample leaves only the cleanup done. An accepted one stores at `t` the compensated estimate at `t` moved by the gain-scaled twist, paired with the odometry sample at `t`; it leaves no key after `t` and keeps the earlier cleaned-up records; the estimate becomes the live odometry pose compensated by that record. Buffer, odometry, Q and K never change |
| Estimator.AddVisionMeasurementWithStdDevs | pyrolib/src/main/java/org/team1912/pyrogen/pyrolib/ftclib/estimator/OTOSPoseEstimator.java:210-214 | K's diagonal becomes the new axis gains before the measurement is weighed. A stale measurement changes only K; a dropped one also prunes the ledger; an accepted record is the one the new gain produces, and the ledger and estimate follow from it |
| Estimator.UpdateWithTime | pyrolib/src/main/java/org/team1912/pyrogen/pyrolib/ftclib/estimator/OTOSPoseEstimator.java:305-318 | the live odometry pose is added to the buffer at `t` (and kept when `t` is the newest time); the ledger is untouched; the estimate is the raw odometry pose without records, else its compensation by the newest record |
| EstimatorProperties.SampleAtEmptyExactlyWhenBufferEmpty | pyrolib/src/main/java/org/team1912/pyrogen/pyrolib/ftclib/estimator/OTOSPoseEstimator.java:159-163 | with a `getSample` that answers for any non-empty buffer, `sampleAt` is empty if and only if the buffer is |
| EstimatorProperties.SampleAtClampsToBufferedRange | pyrolib/src/main/java/org/team1912/pyrogen/pyrolib/ftclib/estimator/OTOSPoseEstimator.java:165-170 | a query before the oldest (after the newest) buffered time answers as a query at the oldest (newest) time |
| EstimatorProperties.CleanUpRemovesExactlyBeforeFloor | pyrolib/src/main/java/org/team1912/pyrogen/pyrolib/ftclib/estimator/OTOSPoseEstimator.java:189-208 | a no-op without odometry, without records, or when the oldest buffered time precedes every record. Otherwise exactly the keys strictly before `floorKey(oldest)` go, and that floor entry and all later ones stay unchanged |
| EstimatorProperties.CleanUpIsIdempotent | pyrolib/src/main/java/org/team1912/pyrogen/pyrolib/ftclib/estimator/OTOSPoseEstimator.java:189-208 | a second cleanup removes nothing more |
| EstimatorProperties.AcceptedRecordScalesEachAxis | pyrolib/src/main/java/org/team1912/pyrogen/pyrolib/ftclib/estimator/OTOSPoseEstimator.java:261-278 | the stored vision pose is `exp(sample, (K00·dx, K11·dy, K22·dtheta))` for the twist `log(sample, visionPose)`; the stored odometry pose is the buffer sample at `t` |
| EstimatorProperties.FullTrustRecordsTheMeasurement | pyrolib/src/main/java/org/team1912/pyrogen/pyrolib/ftclib/estimator/OTOSPoseEstimator.java:262-277 | with every gain 1 and `exp` undoing `log`, the recorded vision pose is the measured pose |
| EstimatorProperties.CyclesKeepLedgerAndCompensateByNewest | pyrolib/src/main/java/org/team1912/pyrogen/pyrolib/ftclib/estimator/OTOSPoseEstimator.java:305-318 | any sequence of odometry moves and `updateWithTime` calls leaves the ledger, Q and K alone; the final estimate is the last odometry pose, compensated by the newest record if any |
| EstimatorProperties.CorrectionAnchorsLaterOdometry | pyrolib/src/main/java/org/team1912/pyrogen/pyrolib/ftclib/estimator/OTOSPoseEstimator.java:283-285 | after an accepted measurement at `t`, every later cycle publishes its odometry pose compensated by the record made at `t`; odometry back at its pose of time `t` publishes the recorded vision pose |
| EstimatorProperties.FullTrustReplaysOdometryOnMeasurement | pyrolib/src/main/java/org/team1912/pyrogen/pyrolib/ftclib/estimator/OTOSPoseEstimator.java:277-285 | with full trust, later estimates are the measured pose plus the odometry displacement since the odometry sample at `t` |
| EstimatorProperties.EarlierMeasurementDiscardsLaterRecords | pyrolib/src/main/java/org/team1912/pyrogen/pyrolib/ftclib/estimator/OTOSPoseEstimator.java:280-281 | an accepted measurement at `t` removes every record stamped strictly after `t` |
| EstimatorProperties.RetentionForgetsSamplesOutsideWindow | pyrolib/src/main/java/org/team1912/pyrogen/pyrolib/ftclib/estimator/OTOSPoseEstimator.java:25-29 | with the 1.5 s window, samples at 0 s and 1 s are both kept, and a third at 2 s drops the one at 0 s |
| EstimatorProperties.ResetsIgnoreVisionUntilNextUpdate | pyrolib/src/main/java/org/team1912/pyrogen/pyrolib/ftclib/estimator/OTOSPoseEstimator.java:100-142 | after any reset, and before the next `updateWithTime`, `sampleAt` is empty at every time and every vision measurement is dropped without changing the state |
| EstimatorProperties.LedgerMayLackEntryBeforeOldestSample | pyrolib/src/main/java/org/team1912/pyrogen/pyrolib/ftclib/estimator/OTOSPoseEstimator.java:31-34 | odometry at 0 s and 1 s followed by a measurement at 0.5 s gives the ledger keys {0.5} and oldest buffered time 0. So a vision measurement does not guarantee a record at or before the oldest buffered time |

## Left out

- `update()`, `init_timer` and `getTimestamp` (OTOSPoseEstimator.java:294-296, 355-360) read the wall clock. Time is a parameter of `UpdateWithTime` instead.
- `getEstimatedPosition` is the `poseEstimate` field. `updateWithTime` returns that same value; the model returns the new state.
- The odometry source (OTOSOdometry is not part of this model). It is the `odometryPose` field. `updatePose(p)` followed by `getPose()` is taken to yield `p`. Its own motion between cycles is `Estimator.MoveOdometry`.
- Pose2d, Transform2d and Twist2d arithmetic. It is trigonometric floating-point code, kept as uninterpreted functions. So numeric facts such as interpolation halfway between (0, 0) and (4, 0) giving (2, 0) are not modelled. A correction carries odometry displacement over to the vision pose only in algebraic form, under the law `Geometry.MinusUndoesPlus` (see `Estimator.Compensate`).
- TimeInterpolatableBuffer interpolation. `getSample` is an arbitrary `Interpolator`. The buffer's retention pruning is an assumed rule, since its code is not part of this model (see `PoseBuffer.AddSample` below).
- Floating point. Timestamps, variances and gains are exact reals, so NaN, infinities and rounding are not modelled. `Math.sqrt` is a parameter.
- The JAMA Matrix class. It is a `seq<seq<real>>` (3x3) and a `seq<real>` (3x1), with the full 3x3-by-3x1 product.
- `sampleAt` being side-effect free and repeatable holds by construction: it is a pure function of the state.
- ProfiledPIDController, RunCommand and PathType. They are outside the estimator and are not modelled. ProfiledPIDController is a PID controller stepped along a trapezoid motion profile, with wrapping for continuous input. RunCommand is a command that runs a `Runnable`. PathType is a two-value enum.
- EstimatorProperties.SampleAtEmptyExactlyWhenBufferEmpty: holds only under the assumption `SamplesWhenNonEmpty` about `getSample`, because the buffer code is not part of this model.
- VisionGain.GainFallsAsVisionStdDevGrows: compares non-negative standard deviations only, and assumes `sqrt` is increasing, because `Math.sqrt` is a parameter.
- PoseBuffer.AddSample: the pruning rule of TimeInterpolatableBuffer is assumed, since its code is not part of this model. A sample exactly 1.5 s older than the newest key is kept. The window is measured from the newest key, not from the inserted time, so an out-of-order sample older than the newest key minus 1.5 s is dropped at once. A buffer that prunes differently would differ from the model at these two points.

=== FILE: estimator.dfy ===
/** The sensor-fused pose estimator (OTOSPoseEstimator).

    The estimator is an immutable `State`; every public operation of
    OTOSPoseEstimator is a pure transition from one state to the next.  The state holds
    the pose currently reported by the odometry source, the odometry buffer
    (timestamp to odometry pose), the vision ledger (timestamp to vision
    update record), the published estimate, the process variances Q and the
    gain matrix K.  The pose algebra, `Math.sqrt` and the buffer's
    interpolating `getSample` come in as `Collaborators`. */
module Estimator {
  import opened Wrappers
  import opened Geometry
  import opened TimeMaps
  import opened PoseBuffer
  import opened VisionGain

  /** Seconds of odometry history the buffer retains (kBufferDuration). */
  const BufferDuration: real := 1.5

  /** A vision update record: the vision-compensated pose at a timestamp and
      the odometry-only pose at that same timestamp. */
  datatype VisionUpdate = VisionUpdate(visionPose: Pose, odometryPose: Pose)

  /** The vision ledger, keyed by the timestamp of the measurement. */
  type Ledger = map<real, VisionUpdate>

  datatype Collaborators = Collaborators(
    geometry: PoseAlgebra,
    sqrt: real -> real,
    sample: Interpolator)

  datatype State = State(
    odometryPose: Pose,
    buffer: Buffer,
    visionUpdates: Ledger,
    poseEstimate: Pose,
    q: Vector,
    visionK: Matrix)

  /** What every reachable state satisfies: three non-negative process
      variances and a diagonal 3x3 gain with entries in [0, 1]. */
  predicate Valid(s: State)
  {
    && |s.q| == 3
    && (forall i | 0 <= i < 3 :: 0.0 <= s.q[i])
    && IsMatrix3(s.visionK)
    && IsDiagonal(s.visionK)
    && (forall i | 0 <= i < 3 :: 0.0 <= s.visionK[i][i] <= 1.0)
  }

  /** `VisionUpdate.compensate`: re-express `pose`, given relative to the
      record's odometry pose, relative to the record's vision pose.  The
      record's own odometry pose is carried onto its vision pose. */
  function Compensate(g: PoseAlgebra, u: VisionUpdate, pose: Pose): (r: Pose)
    ensures NullDeltaIsIdentity(g) && pose == u.odometryPose ==> r == u.visionPose
    // the displacement of `pose` from the record's odometry pose becomes the
    // displacement of the result from the record's vision pose
    ensures MinusUndoesPlus(g) ==> g.minus(r, u.visionPose) == g.minus(pose, u.odometryPose)
  {
    g.plus(u.visionPose, g.minus(pose, u.odometryPose))
  }

  /** `Optional.map(compensate)` over a buffer sample. */
  function CompensateSample(g: PoseAlgebra, u: VisionUpdate, sample: Option<Pose>): Option<Pose>
  {
    match sample
    case None => None
    case Some(p) => Some(Compensate(g, u, p))
  }

  /** `MathUtil.clamp(t, low, high)`. */
  function Clamp(t: real, low: real, high: real): (c: real)
    requires low <= high
    ensures low <= c <= high
    ensures low <= t <= high ==> c == t
    ensures t < low ==> c == low
    ensures high < t ==> c == high
  {
    var below := if t < high then t else high;
    if low < below then below else low
  }

  /** The constructor: seeds the estimate from the odometry pose, squares the
      state standard deviations into Q and derives K from the initial vision
      standard deviations. */
  function Create(env: Collaborators, odometryPose: Pose, stateStdDevs: Vector,
                  visionStdDevs: Vector): (s: State)
    requires |stateStdDevs| == 3 && |visionStdDevs| == 3
    requires SqrtIsNonNegative(env.sqrt)
    ensures Valid(s)
    ensures s.buffer == map[] && s.visionUpdates == map[]
    ensures s.odometryPose == odometryPose && s.poseEstimate == odometryPose
    ensures forall i | 0 <= i < 3 :: s.q[i] == stateStdDevs[i] * stateStdDevs[i]
    ensures forall i | 0 <= i < 3 :: s.visionK[i][i] == AxisGain(s.q[i], visionStdDevs[i], env.sqrt)
  {
    var q := ProcessVariances(stateStdDevs);
    var k := UpdatedGain(ZeroMatrix(), q, visionStdDevs, env.sqrt);
    State(odometryPose, Clear(), map[], odometryPose, q, k)
  }

  /** `setVisionMeasurementStdDevs`: recomputes the diagonal of K from the new
      vision standard deviations; nothing else changes. */
  function SetVisionMeasurementStdDevs(env: Collaborators, s: State,
                                       visionStdDevs: Vector): (r: State)
    requires Valid(s) && |visionStdDevs| == 3
    requires SqrtIsNonNegative(env.sqrt)
    ensures Valid(r)
    ensures r == s.(visionK := r.visionK)
    ensures forall i | 0 <= i < 3 :: r.visionK[i][i] == AxisGain(s.q[i], visionStdDevs[i], env.sqrt)
  {
    s.(visionK := UpdatedGain(s.visionK, s.q, visionStdDevs, env.sqrt))
  }

  /** The common tail of every reset: the odometry source is re-seeded with
      `pose`, both the buffer and the ledger are emptied and the estimate is
      the freshly seeded odometry pose. */
  function Reseed(s: State, pose: Pose): (r: State)
    ensures r.buffer == map[] && r.visionUpdates == map[]
    ensures r.odometryPose == pose && r.poseEstimate == pose
    ensures r.q == s.q && r.visionK == s.visionK
  {
    s.(odometryPose := pose, buffer := Clear(), visionUpdates := map[], poseEstimate := pose)
  }

  /** `resetPosition(gyroAngle, pose)`: the position of `pose` with the heading `gyroAngle`. */
  function ResetPosition(s: State, gyroAngle: Rotation, pose: Pose): (r: State)
    ensures r.buffer == map[] && r.visionUpdates == map[]
    ensures r.odometryPose == Pose(pose.x, pose.y, gyroAngle)
    ensures r.poseEstimate == r.odometryPose
    ensures r.q == s.q && r.visionK == s.visionK
    ensures Valid(s) ==> Valid(r)
  {
    Reseed(s, Pose(pose.x, pose.y, gyroAngle))
  }

  /** `resetPose(pose)`. */
  function ResetPose(s: State, pose: Pose): (r: State)
    ensures r.buffer == map[] && r.visionUpdates == map[]
    ensures r.odometryPose == pose && r.poseEstimate == pose
    ensures r.q == s.q && r.visionK == s.visionK
    ensures Valid(s) ==> Valid(r)
  {
    Reseed(s, pose)
  }

  /** `resetTranslation(translation)`: the new position with the heading of
      the current estimate. */
  function ResetTranslation(s: State, translation: Translation): (r: State)
    ensures r.buffer == map[] && r.visionUpdates == map[]
    ensures r.odometryPose.x == translation.x && r.odometryPose.y == translation.y
    ensures r.odometryPose.rotation == s.poseEstimate.rotation
    ensures r.poseEstimate == r.odometryPose
    ensures r.q == s.q && r.visionK == s.visionK
    ensures Valid(s) ==> Valid(r)
  {
    Reseed(s, Pose(translation.x, translation.y, s.poseEstimate.rotation))
  }

  /** `resetRotation(rotation)`: the position of the current estimate with the
      new heading. */
  function ResetRotation(s: State, rotation: Rotation): (r: State)
    ensures r.buffer == map[] && r.visionUpdates == map[]
    ensures r.odometryPose.x == s.poseEstimate.x && r.odometryPose.y == s.poseEstimate.y
    ensures r.odometryPose.rotation == rotation
    ensures r.poseEstimate == r.odometryPose
    ensures r.q == s.q && r.visionK == s.visionK
    ensures Valid(s) ==> Valid(r)
  {
    Reseed(s, Pose(s.poseEstimate.x, s.poseEstimate.y, rotation))
  }

  /** The odometry source advancing on its own (wheel and gyro motion between
      cycles); the estimator sees it only through `getPose()`. */
  function MoveOdometry(s: State, pose: Pose): State
  {
    s.(odometryPose := pose)
  }

  /** `sampleAt(t)`: nothing when the buffer is empty; otherwise the buffer is
      sampled at `t` clamped into its range, and that sample is compensated by
      the newest vision update at or before the clamped time, if there is one. */
  function SampleAt(env: Collaborators, s: State, t: real): (r: Option<Pose>)
    ensures s.buffer.Keys == {} ==> r == None
    ensures s.buffer.Keys != {} ==>
      var c := Clamp(t, FirstKey(s.buffer), LastKey(s.buffer));
      (forall k | k in s.visionUpdates :: c < k) ==> r == env.sample(s.buffer, c)
    ensures s.buffer.Keys != {} ==>
      var c := Clamp(t, FirstKey(s.buffer), LastKey(s.buffer));
      forall k | IsFloor(s.visionUpdates, c, k) ::
        r == CompensateSample(env.geometry, s.visionUpdates[k], env.sample(s.buffer, c))
  {
    if s.buffer.Keys == {} then None
    else
      var c := Clamp(t, FirstKey(s.buffer), LastKey(s.buffer));
      if s.visionUpdates.Keys == {} || c < FirstKey(s.visionUpdates) then
        env.sample(s.buffer, c)
      else
        var floor := FloorKey(s.visionUpdates, c);
        CompensateSample(env.geometry, s.visionUpdates[floor], env.sample(s.buffer, c))
  }

  /** `cleanUpVisionUpdates()`: forgets the ledger entries that precede the
      newest entry at or before the oldest buffered timestamp.  A ledger key
      survives exactly when it is at or after every ledger key that is at or
      before the oldest buffered time, so afterwards at most one ledger key
      lies at or before that time. */
  function CleanUpVisionUpdates(s: State): (r: State)
    ensures r == s.(visionUpdates := r.visionUpdates)
    ensures forall k :: k in r.visionUpdates <==>
      (k in s.visionUpdates &&
       (s.buffer.Keys == {} ||
        forall j | j in s.visionUpdates && j <= FirstKey(s.buffer) :: j <= k))
    ensures forall k | k in r.visionUpdates :: r.visionUpdates[k] == s.visionUpdates[k]
    ensures s.buffer.Keys != {} ==>
      forall k1, k2 | k1 in r.visionUpdates && k2 in r.visionUpdates &&
                      k1 <= FirstKey(s.buffer) && k2 <= FirstKey(s.buffer) :: k1 == k2
  {
    if s.buffer.Keys == {} then s
    else
      var oldest := FirstKey(s.buffer);
      if s.visionUpdates.Keys == {} || oldest < FirstKey(s.visionUpdates) then s
      else
        var needed := FloorKey(s.visionUpdates, oldest);
        s.(visionUpdates := DropBefore(s.visionUpdates, needed))
  }

  /** The cleanup forgets only entries that no `sampleAt` can reach: sampling
      at any time gives the same answer before and after it. */
  lemma CleanUpPreservesSampling(env: Collaborators, s: State, t: real)
    ensures SampleAt(env, CleanUpVisionUpdates(s), t) == SampleAt(env, s, t)
  {
    var r := CleanUpVisionUpdates(s);
    assert r.buffer == s.buffer;
    if s.buffer.Keys != {} {
      var c := Clamp(t, FirstKey(s.buffer), LastKey(s.buffer));
      assert FirstKey(s.buffer) <= c;
      if HasFloor(s.visionUpdates, c) {
        var k := FloorKey(s.visionUpdates, c);
        assert IsFloor(s.visionUpdates, c, k);
        assert k in r.visionUpdates;
        assert IsFloor(r.visionUpdates, c, k);
      } else {
        assert forall k | k in r.visionUpdates :: c < k;
      }
    }
  }

  /** The measurement at `t` is too old for the buffer, or there is no buffer:
      a measurement is kept only when every buffered sample lies within the
      retention window after it. */
  function IsStale(s: State, t: real): (stale: bool)
    ensures !stale <==>
      (s.buffer.Keys != {} && forall k | k in s.buffer :: k - BufferDuration <= t)
  {
    s.buffer.Keys == {} || LastKey(s.buffer) - BufferDuration > t
  }

  /** `addVisionMeasurement` will record the measurement at `t`: it is not
      stale and both the raw odometry sample and the vision-compensated sample
      at `t` exist. */
  predicate Accepts(env: Collaborators, s: State, t: real)
  {
    && !IsStale(s, t)
    && env.sample(s.buffer, t).Some?
    && SampleAt(env, s, t).Some?
  }

  /** The record `addVisionMeasurement` stores for `visionPose` at `t`: the
      compensated estimate at `t`, moved towards `visionPose` by the twist
      between them scaled by the gain, paired with the odometry sample at `t`. */
  function NewVisionUpdate(env: Collaborators, s: State, visionPose: Pose, t: real): VisionUpdate
    requires Valid(s) && Accepts(env, s, t)
  {
    var g := env.geometry;
    var estimateAtT := SampleAt(env, s, t).value;
    var scaled := ScaleTwist(s.visionK, g.log(estimateAtT, visionPose));
    VisionUpdate(g.exp(estimateAtT, scaled), env.sample(s.buffer, t).value)
  }

  /** `addVisionMeasurement(visionPose, t)`.  A stale measurement changes
      nothing; one whose samples are missing only prunes the ledger; an
      accepted one becomes the newest ledger entry, at `t`, replacing every
      later entry, and the estimate becomes the live odometry pose compensated
      by it. */
  function AddVisionMeasurement(env: Collaborators, s: State, visionPose: Pose,
                                t: real): (r: State)
    requires Valid(s)
    ensures Valid(r)
    ensures r.odometryPose == s.odometryPose && r.buffer == s.buffer
    ensures r.q == s.q && r.visionK == s.visionK
    ensures IsStale(s, t) ==> r == s
    ensures !IsStale(s, t) && !Accepts(env, s, t) ==> r == CleanUpVisionUpdates(s)
    ensures Accepts(env, s, t) ==>
      var u := NewVisionUpdate(env, s, visionPose, t);
      && t in r.visionUpdates && r.visionUpdates[t] == u
      && (forall k | k in r.visionUpdates :: k <= t)
      && (forall k | k != t :: k in r.visionUpdates <==>
            k < t && k in CleanUpVisionUpdates(s).visionUpdates)
      && (forall k | k in r.visionUpdates && k != t :: r.visionUpdates[k] == s.visionUpdates[k])
      && r.poseEstimate == Compensate(env.geometry, u, s.odometryPose)
  {
    if IsStale(s, t) then s
    else
      var cleaned := CleanUpVisionUpdates(s);
      match env.sample(s.buffer, t)
      case None => cleaned
      case Some(odometrySample) =>
        CleanUpPreservesSampling(env, s, t);
        match SampleAt(env, cleaned, t)
        case None => cleaned
        case Some(visionSample) =>
          var g := env.geometry;
          var scaled := ScaleTwist(s.visionK, g.log(visionSample, visionPose));
          var u := VisionUpdate(g.exp(visionSample, scaled), odometrySample);
          var ledger := DropAfter(cleaned.visionUpdates[t := u], t);
          cleaned.(visionUpdates := ledger, poseEstimate := Compensate(g, u, s.odometryPose))
  }

  /** `addVisionMeasurement(visionPose, t, visionStdDevs)`: the new standard
      deviations take effect first, so an accepted measurement is weighed with
      the new gain, and they stay in effect even when the measurement itself
      is dropped. */
  function AddVisionMeasurementWithStdDevs(env: Collaborators, s: State, visionPose: Pose,
                                           t: real, visionStdDevs: Vector): (r: State)
    requires Valid(s) && |visionStdDevs| == 3
    requires SqrtIsNonNegative(env.sqrt)
    ensures Valid(r)
    ensures forall i | 0 <= i < 3 :: r.visionK[i][i] == AxisGain(s.q[i], visionStdDevs[i], env.sqrt)
    ensures r.buffer == s.buffer && r.odometryPose == s.odometryPose && r.q == s.q
    // `s` with only the new gain in place is the state the measurement sees
    ensures Valid(s.(visionK := r.visionK))
    ensures IsStale(s, t) ==> r == s.(visionK := r.visionK)
    ensures !IsStale(s, t) && !Accepts(env, s, t) ==>
      r == CleanUpVisionUpdates(s).(visionK := r.visionK)
    ensures Accepts(env, s, t) ==>
      var u := NewVisionUpdate(env, s.(visionK := r.visionK), visionPose, t);
      && t in r.visionUpdates && r.visionUpdates[t] == u
      && (forall k | k != t :: k in r.visionUpdates <==>
            k < t && k in CleanUpVisionUpdates(s).visionUpdates)
      && (forall k | k in r.visionUpdates && k != t :: r.visionUpdates[k] == s.visionUpdates[k])
      && r.poseEstimate == Compensate(env.geometry, u, s.odometryPose)
  {
    var weighted := SetVisionMeasurementStdDevs(env, s, visionStdDevs);
    assert SampleAt(env, weighted, t) == SampleAt(env, s, t);
    assert CleanUpVisionUpdates(weighted) == CleanUpVisionUpdates(s).(visionK := weighted.visionK);
    AddVisionMeasurement(env, weighted, visionPose, t)
  }

  /** `updateWithTime(t)`: records the live odometry pose in the buffer at `t`
      and publishes it, compensated by the newest ledger entry when there is
      one.  The ledger is left as it is. */
  function UpdateWithTime(env: Collaborators, s: State, t: real): (r: State)
    ensures r.buffer == AddSample(s.buffer, t, s.odometryPose, BufferDuration)
    ensures (forall k | k in s.buffer :: k <= t) ==> t in r.buffer && r.buffer[t] == s.odometryPose
    ensures r.visionUpdates == s.visionUpdates
    ensures r.odometryPose == s.odometryPose && r.q == s.q && r.visionK == s.visionK
    ensures s.visionUpdates.Keys == {} ==> r.poseEstimate == s.odometryPose
    ensures forall k | k in s.visionUpdates && (forall j | j in s.visionUpdates :: j <= k) ::
      r.poseEstimate == Compensate(env.geometry, s.visionUpdates[k], s.odometryPose)
    ensures Valid(s) ==> Valid(r)
  {
    var buffer := AddSample(s.buffer, t, s.odometryPose, BufferDuration);
    if s.visionUpdates.Keys == {} then
      s.(buffer := buffer, poseEstimate := s.odometryPose)
    else
      var u := s.visionUpdates[LastKey(s.visionUpdates)];
      s.(buffer := buffer, poseEstimate := Compensate(env.geometry, u, s.odometryPose))
  }
}

=== FILE: geometry.dfy ===
/** Planar geometry values consumed by the pose estimator.

    The records carry the components the estimator reads directly (a pose's x,
    y and rotation).  The rigid-body algebra that relates them (pose difference,
    pose-plus-transform, and the logarithmic / exponential maps between poses
    and twists) is trigonometric floating-point code; it is kept uninterpreted
    as the function-valued fields of `PoseAlgebra`, so every fact proved about
    the estimator holds for whatever algebra is plugged in. */
module Geometry {

  /** A heading, in radians. */
  datatype Rotation = Rotation(radians: real)

  /** A position on the field, in meters. */
  datatype Translation = Translation(x: real, y: real)

  /** A field position together with a heading. */
  datatype Pose = Pose(x: real, y: real, rotation: Rotation)

  /** The rigid motion taking one pose to another. */
  datatype Transform = Transform(translation: Translation, rotation: Rotation)

  /** A body-frame displacement (dx, dy, dtheta). */
  datatype Twist = Twist(dx: real, dy: real, dtheta: real)

  /** The four pose operations the estimator uses:
      - `minus(p, q)` is `p.minus(q)`, the transform from `q` to `p`;
      - `plus(p, d)` is `p.plus(d)`, the pose reached by applying `d` at `p`;
      - `log(p, q)` is `p.log(q)`, the twist leading from `p` to `q`;
      - `exp(p, tw)` is `p.exp(tw)`, the pose reached by following `tw` from `p`. */
  datatype PoseAlgebra = PoseAlgebra(
    minus: (Pose, Pose) -> Transform,
    plus: (Pose, Transform) -> Pose,
    log: (Pose, Pose) -> Twist,
    exp: (Pose, Twist) -> Pose)

  /** Applying the null transform of a pose to itself leaves any pose unchanged. */
  ghost predicate NullDeltaIsIdentity(g: PoseAlgebra)
  {
    forall p, q :: g.plus(p, g.minus(q, q)) == p
  }

  /** The displacement from `p` to `p` moved by `d` is `d` itself. */
  ghost predicate MinusUndoesPlus(g: PoseAlgebra)
  {
    forall p, d :: g.minus(g.plus(p, d), p) == d
  }

  /** Following the twist from `p` to `q` leads back to `q`. */
  ghost predicate ExpUndoesLog(g: PoseAlgebra)
  {
    forall p, q :: g.exp(p, g.log(p, q)) == q
  }
}

=== FILE: posebuffer.dfy ===
/** The odometry buffer: a time-indexed store of odometry poses with bounded
    retention (TimeInterpolatableBuffer<Pose2d> in Pyrolib).

    Only the key set and the stored poses are modelled.  Interpolating between
    the two samples that bracket a query time is trigonometric floating-point
    code; `Interpolator` keeps it abstract, so a sampler is any function from a
    buffer and a query time to an optional pose. */
module PoseBuffer {
  import opened Wrappers
  import opened Geometry
  import opened TimeMaps

  type Buffer = map<real, Pose>

  /** `getSample(t)` of a buffer. */
  type Interpolator = (Buffer, real) -> Option<Pose>

  /** The assumption made about `getSample`: it comes back empty only when
      the buffer holds no sample at all. */
  ghost predicate SamplesWhenNonEmpty(sample: Interpolator)
  {
    forall b: Buffer, t: real :: b.Keys != {} ==> sample(b, t).Some?
  }

  /** `addSample(t, v)` on a buffer retaining `history` seconds: stores `v` at
      `t` (overwriting any sample already there), then forgets every sample
      older than the newest timestamp minus `history`. */
  function AddSample(b: Buffer, t: real, v: Pose, history: real): (r: Buffer)
    // a stored timestamp survives exactly when it lies within `history` of
    // every timestamp the buffer holds after the insertion
    ensures forall k :: k in r <==>
      (k in b || k == t) && (forall j | j in b || j == t :: j - history <= k)
    ensures t in r ==> r[t] == v
    ensures forall k | k in r && k != t :: r[k] == b[k]
    // a sample at or after every buffered timestamp is always retained
    ensures 0.0 <= history && (forall k | k in b :: k <= t) ==> t in r && r[t] == v
  {
    var inserted := b[t := v];
    assert t in inserted.Keys;
    var newest := LastKey(inserted);
    assert forall j | j in b || j == t :: j in inserted;
    // the window measured from the newest timestamp is the window measured
    // from every timestamp held
    assert newest in b || newest == t;
    assert forall k | k in inserted && newest - history <= k ::
      forall j | j in b || j == t :: j - history <= k;
    DropBefore(inserted, newest - history)
  }

  /** `clear()`. */
  function Clear(): (r: Buffer)
    ensures r.Keys == {}
  {
    map[]
  }
}

=== FILE: properties.dfy ===
/** Properties of the pose estimator that relate several calls, or a call to
    an independent description of what it should do. */
module EstimatorProperties {
  import opened Wrappers
  import opened Geometry
  import opened TimeMaps
  import opened PoseBuffer
  import opened VisionGain
  import opened Estimator

  /** With a buffer whose `getSample` always answers for a non-empty buffer,
      `sampleAt` is empty exactly when the buffer is. */
  lemma SampleAtEmptyExactlyWhenBufferEmpty(env: Collaborators, s: State, t: real)
    requires SamplesWhenNonEmpty(env.sample)
    ensures SampleAt(env, s, t).None? <==> s.buffer.Keys == {}
  {
    if s.buffer.Keys != {} {
      var c := Clamp(t, FirstKey(s.buffer), LastKey(s.buffer));
      assert env.sample(s.buffer, c).Some?;
    }
  }

  /** A query before the oldest buffered time answers as a query at the oldest
      time; one after the newest answers as a query at the newest. */
  lemma SampleAtClampsToBufferedRange(env: Collaborators, s: State, t: real)
    requires s.buffer.Keys != {}
    ensures t < FirstKey(s.buffer) ==> SampleAt(env, s, t) == SampleAt(env, s, FirstKey(s.buffer))
    ensures LastKey(s.buffer) < t ==> SampleAt(env, s, t) == SampleAt(env, s, LastKey(s.buffer))
  {
  }

  /** The cleanup in the shape of the steps of `cleanUpVisionUpdates`:
      nothing happens without odometry samples, without vision updates, or
      when the oldest buffered time precedes every vision update; otherwise exactly the keys
      strictly before the floor key of the oldest buffered time go, and that
      floor entry and every later one stay. */
  lemma CleanUpRemovesExactlyBeforeFloor(s: State)
    ensures (s.buffer.Keys == {} || s.visionUpdates.Keys == {} ||
             FirstKey(s.buffer) < FirstKey(s.visionUpdates)) ==> CleanUpVisionUpdates(s) == s
    ensures s.buffer.Keys != {} && s.visionUpdates.Keys != {} &&
            FirstKey(s.visionUpdates) <= FirstKey(s.buffer) ==>
      var oldest := FirstKey(s.buffer);
      var r := CleanUpVisionUpdates(s);
      && HasFloor(s.visionUpdates, oldest)
      && (forall k :: k in r.visionUpdates <==>
            k in s.visionUpdates && FloorKey(s.visionUpdates, oldest) <= k)
      && (forall k | k in r.visionUpdates :: r.visionUpdates[k] == s.visionUpdates[k])
  {
  }

  /** Cleaning up twice is cleaning up once. */
  lemma CleanUpIsIdempotent(s: State)
    ensures CleanUpVisionUpdates(CleanUpVisionUpdates(s)) == CleanUpVisionUpdates(s)
  {
    var r := CleanUpVisionUpdates(s);
    var rr := CleanUpVisionUpdates(r);
    assert rr.buffer == r.buffer == s.buffer;
    if s.buffer.Keys != {} {
      var oldest := FirstKey(s.buffer);
      forall k | k in r.visionUpdates
        ensures k in rr.visionUpdates
      {
        forall j | j in r.visionUpdates && j <= oldest
          ensures j <= k
        {
          assert j in s.visionUpdates;
        }
      }
    }
    assert rr.visionUpdates == r.visionUpdates;
  }

  /** An accepted measurement is recorded with each axis of the correcting
      twist scaled by that axis' gain. */
  lemma AcceptedRecordScalesEachAxis(env: Collaborators, s: State, visionPose: Pose, t: real)
    requires Valid(s) && Accepts(env, s, t)
    ensures var g := env.geometry;
            var estimateAtT := SampleAt(env, s, t).value;
            var tw := g.log(estimateAtT, visionPose);
            var k := s.visionK;
            var r := AddVisionMeasurement(env, s, visionPose, t);
            && r.visionUpdates[t].odometryPose == env.sample(s.buffer, t).value
            && r.visionUpdates[t].visionPose ==
                 g.exp(estimateAtT, Twist(k[0][0] * tw.dx, k[1][1] * tw.dy, k[2][2] * tw.dtheta))
  {
  }

  /** With full trust in vision (every gain 1) and an exponential map that
      undoes the logarithmic one, the recorded vision pose is the measured
      pose itself. */
  lemma FullTrustRecordsTheMeasurement(env: Collaborators, s: State, visionPose: Pose, t: real)
    requires Valid(s) && Accepts(env, s, t)
    requires forall i | 0 <= i < 3 :: s.visionK[i][i] == 1.0
    requires ExpUndoesLog(env.geometry)
    ensures AddVisionMeasurement(env, s, visionPose, t).visionUpdates[t].visionPose == visionPose
  {
    var g := env.geometry;
    var estimateAtT := SampleAt(env, s, t).value;
    var tw := g.log(estimateAtT, visionPose);
    assert ScaleTwist(s.visionK, tw) == tw;
  }

  /** A measurement older than recorded ones discards them: out-of-order
      arrival silently drops every record stamped after it. */
  lemma EarlierMeasurementDiscardsLaterRecords(env: Collaborators, s: State, visionPose: Pose,
                                               t: real)
    requires Valid(s) && Accepts(env, s, t)
    ensures forall k | k in s.visionUpdates && t < k ::
      k !in AddVisionMeasurement(env, s, visionPose, t).visionUpdates
  {
  }

  /** With the 1.5 s retention, samples at 0 s, 1 s and 2 s leave only the
      last two: 2 - 0 exceeds the window. */
  lemma RetentionForgetsSamplesOutsideWindow(p: Pose)
    ensures var b0 := AddSample(map[], 0.0, p, BufferDuration);
            var b1 := AddSample(b0, 1.0, p, BufferDuration);
            var b2 := AddSample(b1, 2.0, p, BufferDuration);
            b1.Keys == {0.0, 1.0} && b2.Keys == {1.0, 2.0}
  {
  }

  /** One control cycle: the odometry source reports `odometry`, then
      `updateWithTime(time)` runs. */
  datatype Cycle = Cycle(time: real, odometry: Pose)

  function RunCycles(env: Collaborators, s: State, cycles: seq<Cycle>): State
    decreases |cycles|
  {
    if |cycles| == 0 then s
    else
      var next := UpdateWithTime(env, MoveOdometry(s, cycles[0].odometry), cycles[0].time);
      RunCycles(env, next, cycles[1..])
  }

  /** Control cycles never touch the ledger, and after at least one cycle the
      estimate is the last reported odometry pose, compensated by the newest
      ledger entry when there is one. */
  lemma {:induction false} CyclesKeepLedgerAndCompensateByNewest(env: Collaborators, s: State,
                                                                 cycles: seq<Cycle>)
    ensures RunCycles(env, s, cycles).visionUpdates == s.visionUpdates
    ensures RunCycles(env, s, cycles).q == s.q && RunCycles(env, s, cycles).visionK == s.visionK
    ensures |cycles| > 0 && s.visionUpdates.Keys == {} ==>
      RunCycles(env, s, cycles).poseEstimate == cycles[|cycles| - 1].odometry
    ensures |cycles| > 0 ==>
      forall k | k in s.visionUpdates && (forall j | j in s.visionUpdates :: j <= k) ::
        RunCycles(env, s, cycles).poseEstimate ==
          Compensate(env.geometry, s.visionUpdates[k], cycles[|cycles| - 1].odometry)
    decreases |cycles|
  {
    if |cycles| > 0 {
      var next := UpdateWithTime(env, MoveOdometry(s, cycles[0].odometry), cycles[0].time);
      CyclesKeepLedgerAndCompensateByNewest(env, next, cycles[1..]);
      if |cycles| > 1 {
        assert cycles[1..][|cycles[1..]| - 1] == cycles[|cycles| - 1];
      }
    }
  }

  /** The correction anchors later odometry: after an accepted measurement at
      `t`, every later control cycle publishes its odometry pose compensated by
      the record made at `t`.  When the odometry comes back to where it was at
      `t`, the estimate is the recorded vision pose. */
  lemma CorrectionAnchorsLaterOdometry(env: Collaborators, s: State, visionPose: Pose, t: real,
                                       cycles: seq<Cycle>)
    requires Valid(s) && Accepts(env, s, t) && |cycles| > 0
    ensures var added := AddVisionMeasurement(env, s, visionPose, t);
            var u := added.visionUpdates[t];
            var last := cycles[|cycles| - 1].odometry;
            && RunCycles(env, added, cycles).poseEstimate == Compensate(env.geometry, u, last)
            && (NullDeltaIsIdentity(env.geometry) && last == u.odometryPose ==>
                  RunCycles(env, added, cycles).poseEstimate == u.visionPose)
  {
    var added := AddVisionMeasurement(env, s, visionPose, t);
    CyclesKeepLedgerAndCompensateByNewest(env, added, cycles);
    assert t in added.visionUpdates;
    assert forall j | j in added.visionUpdates :: j <= t;
  }

  /** With full trust in vision, later odometry motion is replayed on top of
      the measured pose: the estimate is the measured pose plus the odometry
      displacement since the measurement's timestamp. */
  lemma FullTrustReplaysOdometryOnMeasurement(env: Collaborators, s: State, visionPose: Pose,
                                              t: real, cycles: seq<Cycle>)
    requires Valid(s) && Accepts(env, s, t) && |cycles| > 0
    requires forall i | 0 <= i < 3 :: s.visionK[i][i] == 1.0
    requires ExpUndoesLog(env.geometry)
    ensures var g := env.geometry;
            var added := AddVisionMeasurement(env, s, visionPose, t);
            RunCycles(env, added, cycles).poseEstimate ==
              g.plus(visionPose, g.minus(cycles[|cycles| - 1].odometry,
                                         env.sample(s.buffer, t).value))
  {
    FullTrustRecordsTheMeasurement(env, s, visionPose, t);
    CorrectionAnchorsLaterOdometry(env, s, visionPose, t, cycles);
  }

  /** After any reset the estimator has no history, so until the next
      `updateWithTime` every `sampleAt` is empty and every vision measurement,
      whatever its timestamp, is dropped as stale without touching the state. */
  lemma ResetsIgnoreVisionUntilNextUpdate(env: Collaborators, s: State, gyroAngle: Rotation,
                                          pose: Pose, translation: Translation,
                                          rotation: Rotation)
    requires Valid(s)
    ensures forall r | r in [ResetPosition(s, gyroAngle, pose), ResetPose(s, pose),
                             ResetTranslation(s, translation), ResetRotation(s, rotation)] ::
      && Valid(r)
      && (forall t :: SampleAt(env, r, t) == None)
      && (forall visionPose, t :: AddVisionMeasurement(env, r, visionPose, t) == r)
  {
  }

  /** A collaborator set whose geometry does nothing and whose buffer always
      answers with `p` when it holds a sample. */
  function TrivialCollaborators(p: Pose): Collaborators
  {
    Collaborators(
      PoseAlgebra(
        (a: Pose, b: Pose) => Transform(Translation(0.0, 0.0), Rotation(0.0)),
        (a: Pose, d: Transform) => a,
        (a: Pose, b: Pose) => Twist(0.0, 0.0, 0.0),
        (a: Pose, tw: Twist) => a),
      (x: real) => x,
      (b: Buffer, t: real) => if b.Keys == {} then None else Some(p))
  }

  /** The ledger need not hold an entry at or before the oldest buffered
      time, even after a vision measurement: odometry at 0 s and 1 s, then a
      measurement stamped 0.5 s, leave the single ledger key 0.5 while the
      oldest buffered time is 0. */
  lemma LedgerMayLackEntryBeforeOldestSample(p: Pose)
    ensures var env := TrivialCollaborators(p);
            var s0 := Create(env, p, [1.0, 1.0, 1.0], [1.0, 1.0, 1.0]);
            var s2 := UpdateWithTime(env, UpdateWithTime(env, s0, 0.0), 1.0);
            var s3 := AddVisionMeasurement(env, s2, p, 0.5);
            && s3.visionUpdates.Keys == {0.5}
            && s3.buffer.Keys == {0.0, 1.0}
            && FirstKey(s3.buffer) == 0.0
            && forall k | k in s3.visionUpdates :: FirstKey(s3.buffer) < k
  {
    var env := TrivialCollaborators(p);
    assert SqrtIsNonNegative(env.sqrt);
    var s0 := Create(env, p, [1.0, 1.0, 1.0], [1.0, 1.0, 1.0]);
    var s1 := UpdateWithTime(env, s0, 0.0);
    assert s1.buffer.Keys == {0.0};
    var s2 := UpdateWithTime(env, s1, 1.0);
    assert s2.buffer.Keys == {0.0, 1.0};
    assert LastKey(s2.buffer) == 1.0;
    assert FirstKey(s2.buffer) == 0.0;
    assert !IsStale(s2, 0.5);
    assert SampleAt(env, s2, 0.5).Some?;
    assert Accepts(env, s2, 0.5);
    var s3 := AddVisionMeasurement(env, s2, p, 0.5);
    assert CleanUpVisionUpdates(s2).visionUpdates == map[];
    assert s3.visionUpdates.Keys == {0.5};
  }
}

=== FILE: timemaps.dfy ===
/** The ordered-map queries the estimator performs on its timestamp-keyed maps
    (java.util.NavigableMap / TreeMap): first key, last key, floor key, and the
    two range clears `headMap(t, false).clear()` and `tailMap(t, false).clear()`.
    A map is a finite `map<real, V>`; its order is the order of the keys. */
module TimeMaps {

  predicate IsLeast(s: set<real>, m: real)
  {
    m in s && forall y | y in s :: m <= y
  }

  predicate IsGreatest(s: set<real>, m: real)
  {
    m in s && forall y | y in s :: y <= m
  }

  lemma NonEmptyHasElement(s: set<real>)
    requires s != {}
    ensures exists x :: x in s
  {
    assert (forall x :: x !in s) ==> s == {};
  }

  /** Every non-empty finite set of timestamps has a least element. */
  lemma {:induction false} LeastExists(s: set<real>)
    requires s != {}
    ensures exists m :: IsLeast(s, m)
    decreases |s|
  {
    NonEmptyHasElement(s);
    var x :| x in s;
    if s == {x} {
      assert IsLeast(s, x);
    } else {
      var rest := s - {x};
      assert |rest| < |s|;
      LeastExists(rest);
      var m :| IsLeast(rest, m);
      assert forall y | y in s :: y == x || y in rest;
      if x < m {
        assert IsLeast(s, x);
      } else {
        assert IsLeast(s, m);
      }
    }
  }

  /** Every non-empty finite set of timestamps has a greatest element. */
  lemma {:induction false} GreatestExists(s: set<real>)
    requires s != {}
    ensures exists m :: IsGreatest(s, m)
    decreases |s|
  {
    NonEmptyHasElement(s);
    var x :| x in s;
    if s == {x} {
      assert IsGreatest(s, x);
    } else {
      var rest := s - {x};
      assert |rest| < |s|;
      GreatestExists(rest);
      var m :| IsGreatest(rest, m);
      assert forall y | y in s :: y == x || y in rest;
      if m < x {
        assert IsGreatest(s, x);
      } else {
        assert IsGreatest(s, m);
      }
    }
  }

  function Least(s: set<real>): (m: real)
    requires s != {}
    ensures IsLeast(s, m)
  {
    LeastExists(s);
    var m :| IsLeast(s, m); m
  }

  function Greatest(s: set<real>): (m: real)
    requires s != {}
    ensures IsGreatest(s, m)
  {
    GreatestExists(s);
    var m :| IsGreatest(s, m); m
  }

  /** `firstKey()`: the oldest timestamp. */
  function FirstKey<V>(m: map<real, V>): (k: real)
    requires m.Keys != {}
    ensures IsLeast(m.Keys, k)
  {
    Least(m.Keys)
  }

  /** `lastKey()`: the newest timestamp. */
  function LastKey<V>(m: map<real, V>): (k: real)
    requires m.Keys != {}
    ensures IsGreatest(m.Keys, k)
  {
    Greatest(m.Keys)
  }

  /** Some key lies at or before `t`, so `floorKey(t)` is defined. */
  predicate HasFloor<V>(m: map<real, V>, t: real)
  {
    exists k | k in m :: k <= t
  }

  /** `k` is the newest key of `m` at or before `t`. */
  predicate IsFloor<V>(m: map<real, V>, t: real, k: real)
  {
    k in m && k <= t && forall j | j in m && j <= t :: j <= k
  }

  /** `floorKey(t)`: the newest timestamp at or before `t`. */
  function FloorKey<V>(m: map<real, V>, t: real): (k: real)
    requires HasFloor(m, t)
    ensures IsFloor(m, t, k)
  {
    var below := set j | j in m && j <= t;
    var w :| w in m && w <= t;
    assert w in below;
    var k := Greatest(below);
    assert forall j | j in m && j <= t :: j in below;
    k
  }

  /** `headMap(t, false).clear()`: drops every entry strictly before `t`. */
  function DropBefore<V>(m: map<real, V>, t: real): (r: map<real, V>)
    ensures forall k :: k in r <==> k in m && t <= k
    ensures forall k | k in r :: r[k] == m[k]
  {
    map k | k in m && t <= k :: m[k]
  }

  /** `tailMap(t, false).clear()`: drops every entry strictly after `t`. */
  function DropAfter<V>(m: map<real, V>, t: real): (r: map<real, V>)
    ensures forall k :: k in r <==> k in m && k <= t
    ensures forall k | k in r :: r[k] == m[k]
  {
    map k | k in m && k <= t :: m[k]
  }
}

=== FILE: visiongain.dfy ===
/** The steady-state correction gain of the estimator.

    The process variances Q (one per axis x, y, heading) are fixed at
    construction; the 3x3 gain matrix K is recomputed whenever the vision
    standard deviations change.  Matrices are the 3x1 and 3x3 JAMA `Matrix`
    objects of OTOSPoseEstimator, written as sequences; a fresh matrix is all zeros.
    `Math.sqrt` is a parameter: the only facts used about it are stated as the
    predicates below. */
module VisionGain {
  import opened Geometry

  type Vector = seq<real>
  type Matrix = seq<seq<real>>

  predicate IsMatrix3(m: Matrix)
  {
    |m| == 3 && forall i | 0 <= i < 3 :: |m[i]| == 3
  }

  predicate IsDiagonal(m: Matrix)
    requires IsMatrix3(m)
  {
    forall i, j | 0 <= i < 3 && 0 <= j < 3 && i != j :: m[i][j] == 0.0
  }

  /** `new Matrix(3, 3)`. */
  function ZeroMatrix(): (z: Matrix)
    ensures IsMatrix3(z) && IsDiagonal(z)
    ensures forall i | 0 <= i < 3 :: z[i][i] == 0.0
  {
    seq(3, i => seq(3, j => 0.0))
  }

  /** The square root never returns a negative number for a non-negative argument. */
  ghost predicate SqrtIsNonNegative(sqrt: real -> real)
  {
    forall x :: 0.0 <= x ==> 0.0 <= sqrt(x)
  }

  /** The square root is strictly increasing on the non-negative numbers. */
  ghost predicate SqrtIsIncreasing(sqrt: real -> real)
  {
    forall x, y :: 0.0 <= x < y ==> sqrt(x) < sqrt(y)
  }

  /** The constructor's Q setup: each process variance is the square of the
      configured state standard deviation on that axis, hence never negative. */
  function ProcessVariances(stateStdDevs: Vector): (q: Vector)
    requires |stateStdDevs| == 3
    ensures |q| == 3
    ensures forall i | 0 <= i < 3 :: q[i] == stateStdDevs[i] * stateStdDevs[i]
    ensures forall i | 0 <= i < 3 :: 0.0 <= q[i]
  {
    seq(3, i requires 0 <= i < 3 => stateStdDevs[i] * stateStdDevs[i])
  }

  /** A positive number over a number at least as large lies in (0, 1]. */
  lemma RatioAtMostOne(q: real, d: real)
    requires 0.0 < q <= d
    ensures 0.0 < q / d <= 1.0
  {
    var x := q / d;
    assert x * d == q;
    assert (1.0 - x) * d == d - q;
  }

  /** A product that is positive with one positive factor has a positive other factor. */
  lemma PositiveByPositiveFactor(p: real, c: real)
    requires 0.0 < c && 0.0 < p * c
    ensures 0.0 < p
  {
    var inv := 1.0 / c;
    assert inv * c == 1.0;
    assert 0.0 < inv;
    assert p == (p * c) * inv;
  }

  /** `q / (q + a)` strictly falls as the non-negative `a` grows. */
  lemma RatioFalls(q: real, a: real, b: real)
    requires 0.0 < q && 0.0 <= a < b
    ensures q / (q + b) < q / (q + a)
  {
    var x := q / (q + a);
    var y := q / (q + b);
    assert x * (q + a) == q;
    assert y * (q + b) == q;
    assert y * (q + a) < q;
    assert (x - y) * (q + a) > 0.0;
    PositiveByPositiveFactor(x - y, q + a);
  }

  /** The gain of one axis for process variance `q` and vision standard
      deviation `visionStdDev`: zero when the axis has no process noise
      (never trust vision there), otherwise `q / (q + sqrt(q * r))` with `r`
      the vision variance. */
  function AxisGain(q: real, visionStdDev: real, sqrt: real -> real): (k: real)
    requires 0.0 <= q
    requires SqrtIsNonNegative(sqrt)
    ensures q == 0.0 ==> k == 0.0
    ensures q != 0.0 ==> k == q / (q + sqrt(q * (visionStdDev * visionStdDev)))
    ensures 0.0 <= k <= 1.0
  {
    if q == 0.0 then 0.0
    else
      assert 0.0 <= q * (visionStdDev * visionStdDev);
      RatioAtMostOne(q, q + sqrt(q * (visionStdDev * visionStdDev)));
      q / (q + sqrt(q * (visionStdDev * visionStdDev)))
  }

  /** The three diagonal gains for process variances `q` and vision standard
      deviations `visionStdDevs` (the vision variance of an axis being the
      square of its standard deviation). */
  function DiagonalGains(q: Vector, visionStdDevs: Vector, sqrt: real -> real): (d: Vector)
    requires |q| == 3 && |visionStdDevs| == 3
    requires forall i | 0 <= i < 3 :: 0.0 <= q[i]
    requires SqrtIsNonNegative(sqrt)
    ensures |d| == 3
    ensures forall i | 0 <= i < 3 :: q[i] == 0.0 ==> d[i] == 0.0
    ensures forall i | 0 <= i < 3 :: q[i] != 0.0 ==>
      d[i] == q[i] / (q[i] + sqrt(q[i] * (visionStdDevs[i] * visionStdDevs[i])))
    ensures forall i | 0 <= i < 3 :: 0.0 <= d[i] <= 1.0
  {
    seq(3, i requires 0 <= i < 3 => AxisGain(q[i], visionStdDevs[i], sqrt))
  }

  /** `k` with its diagonal overwritten by `d` and every other entry kept. */
  function WithDiagonal(k: Matrix, d: Vector): (k': Matrix)
    requires IsMatrix3(k) && |d| == 3
    ensures IsMatrix3(k')
    ensures forall i | 0 <= i < 3 :: k'[i][i] == d[i]
    ensures forall i, j | 0 <= i < 3 && 0 <= j < 3 && i != j :: k'[i][j] == k[i][j]
  {
    seq(3, row requires 0 <= row < 3 =>
      seq(3, col requires 0 <= col < 3 => if row == col then d[row] else k[row][col]))
  }

  /** The gain matrix written by `setVisionMeasurementStdDevs` over `k`: only
      the diagonal is written, entry `i` becoming the gain for process variance `q[i]` and
      vision variance `visionStdDevs[i]` squared; it is zero on an axis
      without process noise and always lies in [0, 1]. */
  function UpdatedGain(k: Matrix, q: Vector, visionStdDevs: Vector,
                       sqrt: real -> real): (k': Matrix)
    requires IsMatrix3(k) && |q| == 3 && |visionStdDevs| == 3
    requires forall i | 0 <= i < 3 :: 0.0 <= q[i]
    requires SqrtIsNonNegative(sqrt)
    ensures IsMatrix3(k')
    ensures forall i, j | 0 <= i < 3 && 0 <= j < 3 && i != j :: k'[i][j] == k[i][j]
    ensures forall i | 0 <= i < 3 :: q[i] == 0.0 ==> k'[i][i] == 0.0
    ensures forall i | 0 <= i < 3 :: q[i] != 0.0 ==>
      k'[i][i] == q[i] / (q[i] + sqrt(q[i] * (visionStdDevs[i] * visionStdDevs[i])))
    ensures forall i | 0 <= i < 3 :: 0.0 <= k'[i][i] <= 1.0
    ensures IsDiagonal(k) ==> IsDiagonal(k')
  {
    WithDiagonal(k, DiagonalGains(q, visionStdDevs, sqrt))
  }

  lemma SquareIncreasing(a: real, b: real)
    requires 0.0 <= a < b
    ensures a * a < b * b
  {
    var aa := a * a;
    var ab := a * b;
    var bb := b * b;
    assert aa <= ab by { assert 0.0 <= a * (b - a); }
    assert ab < bb by { assert 0.0 < b * (b - a); }
  }

  /** A raising of the vision standard deviation on an axis lowers that axis'
      gain strictly, or keeps it at zero when the axis has no process noise. */
  lemma GainFallsAsVisionStdDevGrows(q: real, s1: real, s2: real, sqrt: real -> real)
    requires 0.0 <= q && 0.0 <= s1 < s2
    requires SqrtIsNonNegative(sqrt) && SqrtIsIncreasing(sqrt)
    ensures var k1 := AxisGain(q, s1, sqrt);
            var k2 := AxisGain(q, s2, sqrt);
            (q == 0.0 ==> k1 == 0.0 && k2 == 0.0) && (q != 0.0 ==> k2 < k1)
  {
    if q != 0.0 {
      SquareIncreasing(s1, s2);
      var r1 := s1 * s1;
      var r2 := s2 * s2;
      assert q * r1 < q * r2 by {
        assert 0.0 < q * (r2 - r1);
      }
      var a := sqrt(q * (s1 * s1));
      var b := sqrt(q * (s2 * s2));
      assert 0.0 <= a < b;
      RatioFalls(q, a, b);
    }
  }

  /** `K.times(v)` for a 3x3 `K` and a 3x1 `v`; a diagonal `K` scales each
      component of `v` by its own diagonal entry. */
  function Times(k: Matrix, v: Vector): (r: Vector)
    requires IsMatrix3(k) && |v| == 3
    ensures |r| == 3
    ensures IsDiagonal(k) ==> forall i | 0 <= i < 3 :: r[i] == k[i][i] * v[i]
  {
    seq(3, i requires 0 <= i < 3 => k[i][0] * v[0] + k[i][1] * v[1] + k[i][2] * v[2])
  }

  /** Steps 5 and 6 of `addVisionMeasurement`: the twist, as a column vector,
      multiplied by the gain and read back as a twist.  With a diagonal gain
      this scales each component by its own axis' gain. */
  function ScaleTwist(k: Matrix, tw: Twist): (r: Twist)
    requires IsMatrix3(k)
    ensures IsDiagonal(k) ==>
      r == Twist(k[0][0] * tw.dx, k[1][1] * tw.dy, k[2][2] * tw.dtheta)
  {
    var v := Times(k, [tw.dx, tw.dy, tw.dtheta]);
    Twist(v[0], v[1], v[2])
  }
}

=== FILE: wrappers.dfy ===
/** The optional value used wherever the estimator may have no data to report
    (java.util.Optional in OTOSPoseEstimator). */
module Wrappers {

  datatype Option<+T> = None | Some(value: T)
}
